=== FILE: README.md ===
# Star Wars character hub: a Dafny model of its client-side data logic

The application lists the characters of a public paginated REST API. Its core
logic lives in a handful of TypeScript files:

- The data hook `useSwapiData` drains every page of the people collection
  into one list. It then filters the list by name, species and homeworld,
  collects the species facet, and slices the result into pages of ten.
- The page-number bar `Pagination` decides which page numbers and ellipses
  to show, and which arrow buttons to disable.
- The home page enriches each character on the current page with a species
  name. It also knows whether a search or filter is active and how to clear
  them.
- The mock authentication context keeps a token in state and in browser
  storage.
- A helper maps species names to card colours.

The model describes each of these as immutable datatypes and pure functions.
It proves the promises the code makes about them.

| file | module | models |
|---|---|---|
| `types.dfy` | `SwapiTypes` | the character and page records; `Option` for `T \| null` |
| `numbers.dfy` | `Numbers` | `Min` and `Max` |
| `sequences.dfy` | `Sequences` | subsequence, no-duplicates and first-occurrence notions |
| `js_strings.dfy` | `JsStrings` | `toLowerCase`, `includes` and `split` |
| `aggregation.dfy` | `SwapiAggregation` | the page-following loop of `fetchAllData` |
| `filtering.dfy` | `SwapiFilter` | the memoised search and filter |
| `facets.dfy` | `SwapiFacets` | the `uniqueSpecies` map |
| `paging.dfy` | `SwapiPaging` | `totalPages` and the page window |
| `swapi_data.dfy` | `SwapiData` | the hook's state, its setters and its derived values |
| `pagination.dfy` | `Pagination` | `range`, `usePagination` and the component's guards |
| `homepage.dfy` | `Homepage` | enrichment, `isSearchOrFilterActive` and the clear action |
| `auth.dfy` | `Auth` | login, logout, silent refresh and the storage mirror |
| `helper.dfy` | `Helper` | `getCardColorBySpecies` |

Some things become parameters instead of being modelled:

- **The network.** It is replaced by the outcomes of the requests. The
  aggregation loop takes a sequence of outcomes in request order. Each is a
  received page or a failure (a rejected `fetch` or `json()`). If that sequence ends before the chain does, the loop is
  still waiting and the loading flag stays up.
- **The species endpoint.** It is a total function `lookup: string ->
  Option<string>`. `None` means the request failed.
- **Whether `Promise.all` threw.** This is a `JoinOutcome` parameter.
- **The clock.** `Date.now()` becomes a `nat` argument, and the model writes
  it in decimal.

Apart from what is listed under "## Left out", the model follows the code, including where it behaves differently from what one might expect:

- The species filter tests exact membership of the URL in the character's
  `species` array (`Array.includes` on an array). It is not a substring test.
- `currentPage` is never clamped or reset when the filtered list shrinks.
  `setPage` stores its argument as given.
- `totalPages` is `Math.ceil(n / 10)`, which is 0 for an empty list.
- A failed aggregation keeps the previous list; it does not empty it. This
  matters only on a second run, since the initial list is empty.

## Model

| member | source | states |
|---|---|---|
| `JsStrings.ToLower` | src/hooks/useSwapiData.ts:73 | lower-casing keeps the length, sends each ASCII capital to its lower-case letter (code point plus 32), leaves no upper-case ASCII letter, and changes no other character |
| `JsStrings.IncludesIff` | src/hooks/useSwapiData.ts:73 | `includes` holds exactly when some position of the string starts a copy of the term |
| `JsStrings.Split` | src/hooks/useSwapiData.ts:89 | `split('/')` yields at least one piece, no piece contains `/`, and joining the pieces with `/` gives back the string |
| `JsStrings.SplitJoin` | src/hooks/useSwapiData.ts:89 | the other half of the round trip: splitting a `/`-join of `/`-free pieces gives back the pieces |
| `SwapiAggregation.StopIndex` | src/hooks/useSwapiData.ts:50-55 | the loop ends at the first request that fails or returns a page whose `next` is null or empty; every earlier page links onward |
| `SwapiAggregation.DrainFrom` | src/hooks/useSwapiData.ts:45-59 | the loop still waits iff no outcome ends it, and gives up iff the ending outcome is a failure. Otherwise it returns the accumulator followed by every page's results, in order, up to the page without a next link |
| `SwapiAggregation.RequestedUrls` | src/hooks/useSwapiData.ts:46-54 | the first request is page 1, and each later request is the previous page's `next` link, for exactly as many requests as the loop makes |
| `SwapiAggregation.DrainChain` | src/hooks/useSwapiData.ts:45-56 | for a chain of received pages in which only the last lacks a next link, the result is the concatenation of all their results in page order |
| `SwapiAggregation.DrainFailure` | src/hooks/useSwapiData.ts:48-59 | a failure before the chain ends aborts the loop, whatever comes after |
| `SwapiData.FetchAllData` | src/hooks/useSwapiData.ts:42-63 | loading stays up only while a request is pending. The error is set, to the fixed message, iff a request failed. The list is replaced only by a completed aggregation and is otherwise untouched. Page, search and filters are unchanged |
| `SwapiData.SecondPageFailure` | src/hooks/useSwapiData.ts:56-62 | from the initial state, a failure on the second request leaves an empty list, an error and loading finished (no partial 10 items) |
| `SwapiFilter.Keep` | src/hooks/useSwapiData.ts:72-80 | one `filter` pass keeps exactly the characters meeting its criterion, never more than it was given |
| `SwapiFilter.FilterCharacters` | src/hooks/useSwapiData.ts:68-83 | the result is an order-preserving subsequence of all characters. A character is in it iff it is in the data and meets every non-empty criterion: the name contains the term ignoring case, the species list contains the URL as an element, the homeworld equals the URL. The three successive passes equal one pass over their conjunction. With no criteria it is the whole list |
| `SwapiFilter.FilterIsSelection` | src/hooks/useSwapiData.ts:70-82 | the three successive passes equal a single pass over the conjunction of the active criteria, copies and order included |
| `SwapiFilter.SelectIsSubsequence` | src/hooks/useSwapiData.ts:68-83 | the reference single pass is an order-preserving subsequence keeping exactly the matching characters |
| `SwapiFilter.FilmUrlIgnored` | src/hooks/useSwapiData.ts:6-10 | the film selection never changes the filtered list |
| `SwapiFilter.SearchOnly` | src/hooks/useSwapiData.ts:71-75 | with only a search term, a character is kept iff its lower-cased name includes the lower-cased term |
| `SwapiFacets.SpeciesLabelNamesSegment` | src/hooks/useSwapiData.ts:89 | a URL ending `/<segment>/<tail>` with no `/` in segment or tail is labelled `"Species " + segment` |
| `SwapiFacets.SpeciesLabelWithoutSlash` | src/hooks/useSwapiData.ts:89 | a URL without `/` has no second-to-last piece and is labelled `"Species "` |
| `SwapiFacets.InsertKeeps` | src/hooks/useSwapiData.ts:88-90 | inserting a URL only when it is absent keeps the facet invariant for the extended reference list |
| `SwapiFacets.UniqueSpecies` | src/hooks/useSwapiData.ts:84-94 | the keys are exactly the distinct species URLs of the data, without duplicates, in order of first occurrence, each labelled from its own URL |
| `SwapiPaging.TotalPages` | src/hooks/useSwapiData.ts:95 | the page count is the least number of ten-item pages holding the list: 0 for none, 1 for 1 to 10 items |
| `SwapiPaging.TotalPagesExamples` | src/hooks/useSwapiData.ts:29 | 0, 1, 10, 11 and 100 items need 0, 1, 1, 2 and 10 pages |
| `SwapiPaging.Slice` | src/hooks/useSwapiData.ts:100 | `slice(start, end)` with bounds inside the list is the items from `start` up to `end`. An end past the list stops at its end, an end at or before the start gives nothing, a start at or past the end of the list gives nothing, and the result is never longer than the list or than `end - start` |
| `SwapiPaging.SliceFromEnd` | src/hooks/useSwapiData.ts:100 | a negative bound is read as that many items back from the end, and as 0 when it reaches back past the start |
| `SwapiPaging.PageOf` | src/hooks/useSwapiData.ts:97-101 | a page never holds more than ten items. For page `p >= 1` it is the items from `(p-1)*10` up to ten further or the end, and empty once `(p-1)*10` reaches the end |
| `SwapiPaging.PagesInRange` | src/hooks/useSwapiData.ts:95-101 | for `p >= 1`, page `p` is non-empty iff `p <= totalPages` |
| `SwapiPaging.PagesPartition` | src/hooks/useSwapiData.ts:95-101 | pages 1 to `totalPages` read in order give back the whole filtered list |
| `SwapiPaging.SecondPageOfTwentyFive` | src/hooks/useSwapiData.ts:97-101 | page 2 of a 25-item list is items 10 to 19 |
| `SwapiPaging.NonPositivePages` | src/hooks/useSwapiData.ts:98-100 | since slice bounds can be negative, page 0 is empty but page -1 of 25 items shows items 5 to 14 |
| `SwapiData.SetPage` | src/hooks/useSwapiData.ts:103-105 | the page is stored exactly as given, without clamping, and nothing else changes |
| `SwapiData.SetSearchTerm` | src/hooks/useSwapiData.ts:36 | the search term is stored and nothing else changes |
| `SwapiData.SetFilters` | src/hooks/useSwapiData.ts:37-41 | the filters are stored and nothing else changes |
| `SwapiData.Characters` | src/hooks/useSwapiData.ts:97-108 | from page 1 on, the visible characters are the current ten-item window of the filtered list, empty once the window starts past its end. There are never more than ten, and each is in the data and meets the active criteria |
| `SwapiData.FilterChangeKeepsPage` | src/hooks/useSwapiData.ts:103-105 | a filter change that leaves the current page past the new last page does not move the page, and that page shows nothing |
| `Pagination.Range` | src/component/Pagination/Pagination.tsx:5-8 | `range(a, b)` is the consecutive numbers a..b, of length b-a+1, and empty when b < a |
| `Pagination.WellFormedIncreasing` | src/component/Pagination/Pagination.tsx:36-55 | in a well-formed bar the page numbers strictly increase and are at least 1 |
| `Pagination.WellFormedInRange` | src/component/Pagination/Pagination.tsx:36-55 | every page number of a well-formed bar lies between 1 and the last page |
| `Pagination.NoFallback` | src/component/Pagination/Pagination.tsx:57-58 | the default return is unreachable whenever truncation starts only once there are at least `2s+5` pages |
| `Pagination.BarWellFormed` | src/component/Pagination/Pagination.tsx:23-58 | under that condition the bar runs from 1 to the last page. Adjacent numbers are consecutive, and each ellipsis hides at least one page |
| `Pagination.SiblingsShown` | src/component/Pagination/Pagination.tsx:28-55 | under that condition every in-range page within `s` of the current page is shown |
| `Pagination.PaginationRange` | src/component/Pagination/Pagination.tsx:16-63 | with at most `s+5` pages every page is listed without ellipses. A truncated bar starts at page 1 and ends at the last page, and for `s <= 1` the bar is well formed |
| `Pagination.FallbackUnreachable` | src/component/Pagination/Pagination.tsx:57-58 | with one sibling the "default case" return is never taken, for any current page |
| `Pagination.FallbackReachableWithTwoSiblings` | src/component/Pagination/Pagination.tsx:57-58 | with two siblings, eight pages and page 4 current, it is taken |
| `Pagination.BarWithOneSibling` | src/component/Pagination/Pagination.tsx:36-55 | with one sibling and at least 7 pages: pages 1-5, dots, last while the page is at most 3; first, dots, the last five from 3 before the end; otherwise first, dots, the page and its neighbours, dots, last |
| `Pagination.EmptyEllipsisWithTwoSiblings` | src/component/Pagination/Pagination.tsx:23-41 | as written, two siblings on eight pages put an ellipsis between pages 7 and 8 |
| `Pagination.RepeatedPageWithThreeSiblings` | src/component/Pagination/Pagination.tsx:23-41 | as written, three siblings on nine pages list page 9 twice |
| `Pagination.PastLastPageWithFourSiblings` | src/component/Pagination/Pagination.tsx:23-41 | as written, four siblings on ten pages list a page 11 |
| `Pagination.FixedPaginationRange` | src/component/Pagination/Pagination.tsx:23-58 | the corrected bar is well formed for every sibling count and every current page. It never takes the fallback and shows the current page's in-range siblings |
| `Pagination.FixedAgreesWithOneSibling` | src/component/Pagination/Pagination.tsx:74 | for the one sibling the component passes, the corrected bar equals the bar as written |
| `Pagination.Render` | src/component/Pagination/Pagination.tsx:72-79 | the bar renders iff there are at least two pages and the current page is not 0, so the fewer-than-two-entries guard never fires on its own. A rendered bar is well formed, and its items are the bar `usePagination` computes with the one sibling the component passes |
| `Pagination.Press` | src/component/Pagination/Pagination.tsx:81-151 | first and previous are disabled iff the page is 1, and next and last iff it is the last page. They request 1, page-1, page+1 and the last page. From an in-range page every enabled button requests an in-range page. A page-number button shown in the bar is never disabled, the current page's included, and requests exactly its own page |
| `Homepage.EnrichAll` | src/pages/Homepage.tsx:58-79 | one record per character, in order, each carrying the character unchanged. A character without species is labelled `"Human"`; otherwise the label is the name the species endpoint returns for its first species URL, or `"Unknown"` when that request fails |
| `Homepage.AllUnknown` | src/pages/Homepage.tsx:84 | the fallback keeps every character, in order, each labelled `"Unknown"` |
| `Homepage.EnrichData` | src/pages/Homepage.tsx:47-91 | an empty page gives an empty list and leaves the flag alone. Otherwise the flag ends down. The records always carry exactly the page's characters in order. A thrown join labels all `"Unknown"`; a settled join gives the per-character enrichment |
| `Homepage.EnrichingFlagSettles` | src/pages/Homepage.tsx:85-87 | the enriching flag is never left raised |
| `Homepage.IsSearchOrFilterActive` | src/pages/Homepage.tsx:94-96 | a search or filter is active iff the search term or the filter selection differs from the cleared state, and when none is active the filtered list is the whole list |
| `Homepage.InactiveListsEverything` | src/pages/Homepage.tsx:94-96 | with no search or filter active, the filtered list is the whole list |
| `Homepage.FilmOnlyIsActiveYetUnfiltered` | src/pages/Homepage.tsx:94-96 | a film selection alone counts as active, though it filters nothing out |
| `Homepage.ClearSearchAndFilters` | src/pages/Homepage.tsx:158-162 | afterwards nothing is active and the page is 1. The data, loading flag and error are untouched, the visible characters are the first ten of all, and the page count is that of the whole list |
| `Auth.IsLoggedIn` | src/context/AuthContext.tsx:16 | while state mirrors storage, the session is logged in iff storage holds a non-empty token |
| `Auth.Initial` | src/context/AuthContext.tsx:15 | the token read back from storage agrees with storage |
| `Auth.MintToken` | src/context/AuthContext.tsx:41 | a minted token is `"mock-jwt-"` followed by at least one more character |
| `Auth.Decimal` | src/context/AuthContext.tsx:41 | the timestamp is written as decimal digits without a leading zero (0 is the single digit `"0"`), and reading the digits back gives the timestamp |
| `Auth.MintTokenInjective` | src/context/AuthContext.tsx:41 | tokens minted at different times are different |
| `Auth.Login` | src/context/AuthContext.tsx:38-47 | success iff the username is exactly `"user"` and the password exactly `"pass"`. A failure changes nothing. A success stores the same fresh token in state and storage and logs in. Other storage keys are untouched |
| `Auth.Logout` | src/context/AuthContext.tsx:49-52 | the token leaves storage and state, the session is logged out, and other storage keys are untouched |
| `Auth.SilentRefresh` | src/context/AuthContext.tsx:17-25 | when not logged in nothing changes. When logged in a fresh token is stored in state and storage and the session stays logged in |
| `Auth.StepMirrored` | src/context/AuthContext.tsx:21-51 | each transition keeps state and storage in agreement |
| `Auth.RunMirrored` | src/context/AuthContext.tsx:15-52 | starting in agreement, state and storage agree after any sequence of logins, logouts and refreshes |
| `Auth.LogoutLast` | src/context/AuthContext.tsx:49-52 | whatever happened before, a final logout leaves the session logged out |
| `Auth.LoginLast` | src/context/AuthContext.tsx:38-45 | whatever happened before, a final login with the right credentials leaves the session logged in |
| `Helper.CardColorBySpecies` | src/utils/helper.ts:4-15 | the result is always one of the table's five class pairs. A listed name gets its own entry and any other name the default red pair |
| `Helper.CardColorExamples` | src/utils/helper.ts:5-15 | Droid gives gray, Human blue, Wookiee yellow, Yoda green and Unknown the default red |

## Findings

| source | as written | input that shows it | evidently intended | confidence | as-written member | corrected member |
|---|---|---|---|---|---|---|
| src/component/Pagination/Pagination.tsx:23-24 | the bar is truncated once there are more than `siblingCount + 5` pages, but a truncated branch needs `2 * siblingCount + 5` pages to fit | `siblingCount = 4`, `totalPages = 10`, `currentPage = 1` gives pages 1 to 11, dots, 10. With 3 siblings and 9 pages, page 9 is listed twice. With 2 siblings and 8 pages, an ellipsis hides nothing. The "should be covered" comment at line 57 is also false for 2 siblings | truncate only once there are at least `2 * siblingCount + 5` pages. That equals the code for the 1 sibling the component passes, so the app shows no difference | medium, not executed | `Pagination.PastLastPageWithFourSiblings` | `Pagination.FixedPaginationRange` |

The component model `Pagination.Render` uses the corrected bar.
`Pagination.FixedAgreesWithOneSibling` proves that this bar equals the one
the code computes for the component's sibling count.

## Left out

- HTTP is left out: `fetch` in the hook and axios in `src/api/swapi.ts`.
  Request outcomes and the species lookup are parameters instead.
- React is left out: state, effects and `useMemo` recomputation. Derived
  values are pure functions of the state record.
- `Promise.all` concurrency is left out, along with the stale-enrichment race
  when the page changes while a request is in flight. The model is the
  sequential map-then-join result.
- The refresh timer (`setInterval` every five minutes) is left out. A refresh
  is an explicit event. `Date.now()` is an arbitrary `nat`.
- `formatDate` (date-fns) and `convertCmToMeters` (floating point) are left
  out.
- `uniqueHomeworlds` is left out. The hook always returns it as an empty
  placeholder map.
- Presentational components are left out, along with the JSX of the home page
  and the bar: the loading, restricted, error and empty-state panels, and the
  highlighting of the current page.
- `useAuth`'s error outside a provider is left out.
- Console logging is left out: the `console.error` calls at
  src/hooks/useSwapiData.ts:58 and src/pages/Homepage.tsx:82, and the
  `console.log` calls at src/context/AuthContext.tsx:19 and 23. They change
  no state.
- A response whose JSON body is not a page is left out. `fetch` does not
  reject on an HTTP error status, so a body such as `{"detail": "Not found"}`
  parses. The loop then appends `undefined` to the list, stops because `next`
  is `undefined`, and publishes that list with no error. The model's outcomes
  are only a received page or a failure, and the character list cannot hold
  `undefined`.
- `JsStrings.ToLower`: lower-cases only the ASCII letters A-Z. JavaScript's
  `toLowerCase` also maps non-ASCII letters. The model has no Unicode case
  tables.
- `JsStrings.Split`: modelled only for the one-character separator the code
  uses.
- `SwapiPaging.PageOf`: the page number is an integer. The JavaScript number
  could also be fractional, but no caller produces one.
- `Pagination.PaginationRange`: the sibling count is a `nat`. The code accepts
  any number, but only ever passes 1.
- `Homepage.EnrichAll`: a species response without a `name` field yields
  `undefined` in the code. The model's lookup returns either a name or a
  failure.
- `Helper.CardColorBySpecies`: the object lookup also answers inherited
  property names such as `"constructor"`. The model's map knows only the five
  table keys.

=== FILE: aggregation.dfy ===
/** The page-following loop that drains the paginated people collection into
    one in-memory list. The network is replaced by the sequence of outcomes of
    the successive awaited requests: `responses[i]` is what the i-th
    `fetch(nextUrl)` followed by `response.json()` produced. */
module SwapiAggregation {
  import opened SwapiTypes

  /** The first page the loop requests. */
  const FIRST_PAGE_URL: string := "https://swapi.dev/api/people/?page=1"

  /** A settled request: the parsed page, or a rejected fetch or parse. */
  datatype FetchOutcome = Received(page: Page) | Failed

  /** Where the loop stands once the given outcomes are consumed: finished with
      every character, thrown out of the loop, or still waiting on a request. */
  datatype Drain = Complete(characters: seq<Character>) | Aborted | Awaiting

  /** `while (nextUrl)`: the loop continues only on a non-null, non-empty link. */
  predicate HasNext(p: Page) {
    p.next.Some? && p.next.value != ""
  }

  /** The outcome at `i` lets the loop go on to another request. */
  predicate Continues(responses: seq<FetchOutcome>, i: int)
    requires 0 <= i < |responses|
  {
    responses[i].Received? && HasNext(responses[i].page)
  }

  /** The position of the first outcome that ends the loop (a failure, or a
      page without a next link), or `|responses|` if none does. */
  function StopIndex(responses: seq<FetchOutcome>): (k: nat)
    ensures k <= |responses|
    ensures forall i :: 0 <= i < k ==> Continues(responses, i)
    ensures k < |responses| ==> !Continues(responses, k)
  {
    if |responses| == 0 || !Continues(responses, 0) then 0
    else
      var k := 1 + StopIndex(responses[1..]);
      assert forall i :: 1 <= i < |responses| ==> Continues(responses[1..], i - 1) == Continues(responses, i);
      k
  }

  /** The characters carried by a sequence of outcomes, page after page. */
  function AllResults(responses: seq<FetchOutcome>): seq<Character> {
    if |responses| == 0 then [] else Carried(responses[0]) + AllResults(responses[1..])
  }

  /** The characters one outcome carries: a received page's results, or none. */
  function Carried(o: FetchOutcome): seq<Character> {
    if o.Received? then o.page.results else []
  }

  /** The loop ends exactly at the first outcome that does not continue it. */
  lemma {:induction false} StopIndexAt(responses: seq<FetchOutcome>, j: nat)
    requires j < |responses| && !Continues(responses, j)
    requires forall i :: 0 <= i < j ==> Continues(responses, i)
    ensures StopIndex(responses) == j
    decreases j
  {
    if j > 0 {
      assert Continues(responses, 0);
      forall i | 0 <= i < j - 1
        ensures Continues(responses[1..], i)
      {
        assert Continues(responses, i + 1);
      }
      StopIndexAt(responses[1..], j - 1);
    }
  }

  /** The loop body repeated over the outcomes, with `acc` the characters
      gathered so far: each received page's results are appended, and the loop
      leaves at the first failure or the first page without a next link. */
  function DrainFrom(responses: seq<FetchOutcome>, acc: seq<Character>): (d: Drain)
    ensures var k := StopIndex(responses);
      && (k == |responses| <==> d.Awaiting?)
      && (k < |responses| && responses[k].Failed? <==> d.Aborted?)
      && (k < |responses| && responses[k].Received? ==>
            d == Complete(acc + AllResults(responses[..k + 1])))
  {
    if |responses| == 0 then Awaiting
    else match responses[0]
      case Failed => Aborted
      case Received(page) =>
        var acc' := acc + page.results;
        if HasNext(page) then
          var d := DrainFrom(responses[1..], acc');
          var k := StopIndex(responses);
          assert k == 1 + StopIndex(responses[1..]);
          assert k < |responses| ==> responses[..k + 1] == [responses[0]] + responses[1..][..k];
          d
        else
          assert responses[..1] == [responses[0]];
          Complete(acc')
  }

  /** The loop started on the first page with an empty accumulator. */
  function DrainPages(responses: seq<FetchOutcome>): Drain {
    DrainFrom(responses, [])
  }

  /** The URLs the loop requests, in order: the first page, then each
      continuing page's next link; when the outcomes run out before the loop
      ends, the last URL is the request still in flight. */
  function RequestedUrls(responses: seq<FetchOutcome>): (urls: seq<string>)
    ensures var k := StopIndex(responses);
      |urls| == (if k < |responses| then k + 1 else |responses| + 1)
    ensures urls[0] == FIRST_PAGE_URL
    ensures forall i :: 0 <= i < |urls| - 1 ==>
      Continues(responses, i) && urls[i + 1] == responses[i].page.next.value
  {
    [FIRST_PAGE_URL] + FollowedLinks(responses)
  }

  function FollowedLinks(responses: seq<FetchOutcome>): (links: seq<string>)
    ensures var k := StopIndex(responses);
      |links| == (if k < |responses| then k else |responses|)
    ensures forall i :: 0 <= i < |links| ==>
      Continues(responses, i) && links[i] == responses[i].page.next.value
  {
    if |responses| == 0 || !Continues(responses, 0) then []
    else
      var rest := FollowedLinks(responses[1..]);
      assert forall i :: 1 <= i < |responses| ==> Continues(responses[1..], i - 1) == Continues(responses, i);
      [responses[0].page.next.value] + rest
  }

  /** A well-behaved source: every page is received, each but the last links to
      another, and the last links nowhere. The loop returns exactly the
      concatenation of all their results in page order. */
  lemma DrainChain(pages: seq<Page>)
    requires |pages| >= 1
    requires forall i :: 0 <= i < |pages| - 1 ==> HasNext(pages[i])
    requires !HasNext(pages[|pages| - 1])
    ensures var responses := seq(|pages|, i requires 0 <= i < |pages| => Received(pages[i]));
      DrainPages(responses) == Complete(AllResults(responses))
  {
    var responses := seq(|pages|, i requires 0 <= i < |pages| => Received(pages[i]));
    StopIndexAt(responses, |pages| - 1);
    assert responses[..|pages|] == responses;
  }

  /** If a request fails before the chain ends, the loop gives up: nothing
      gathered so far is returned. */
  lemma DrainFailure(responses: seq<FetchOutcome>, j: nat)
    requires j < |responses| && responses[j].Failed?
    requires forall i :: 0 <= i < j ==> Continues(responses, i)
    ensures DrainPages(responses) == Aborted
  {
    StopIndexAt(responses, j);
  }
}

=== FILE: auth.dfy ===
/** The mock authentication context: a token held in state and mirrored in
    browser storage, with login, logout and a periodic silent refresh. The
    clock is a parameter (`now`, the value `Date.now()` would return). */
module Auth {
  import opened SwapiTypes

  /** The storage key the token is kept under. */
  const STORAGE_KEY: string := "mock-jwt-token"

  /** Every minted token starts with this. */
  const TOKEN_PREFIX: string := "mock-jwt-"

  const VALID_USERNAME: string := "user"
  const VALID_PASSWORD: string := "pass"

  /** The token in context state and the storage it is mirrored in. */
  datatype AuthState = AuthState(token: Option<string>, storage: map<string, string>)

  /** `!!token`: a token that is neither null nor empty. */
  function IsLoggedIn(s: AuthState): (loggedIn: bool)
    ensures Mirrored(s) ==> (loggedIn <==> STORAGE_KEY in s.storage && s.storage[STORAGE_KEY] != "")
  {
    s.token.Some? && s.token.value != ""
  }

  /** State and storage agree on the token. */
  predicate Mirrored(s: AuthState) {
    if STORAGE_KEY in s.storage then s.token == Some(s.storage[STORAGE_KEY]) else s.token == None
  }

  /** The provider's first render reads the token back from storage. */
  function Initial(storage: map<string, string>): (s: AuthState)
    ensures Mirrored(s)
    ensures s.storage == storage
  {
    AuthState(if STORAGE_KEY in storage then Some(storage[STORAGE_KEY]) else None, storage)
  }

  function DigitChar(d: nat): (c: char)
    requires d < 10
    ensures '0' <= c <= '9'
    ensures c as int - '0' as int == d
  {
    "0123456789"[d]
  }

  /** The number a string of decimal digits spells, read left to right. */
  function DigitsValue(s: string): int
    decreases |s|
  {
    if |s| == 0 then 0 else DigitsValue(s[..|s| - 1]) * 10 + (s[|s| - 1] as int - '0' as int)
  }

  /** A timestamp written in decimal, as a template literal renders it: digits
      only, no leading zero, and reading the digits back gives the timestamp. */
  function Decimal(n: nat): (r: string)
    ensures |r| >= 1
    ensures forall i :: 0 <= i < |r| ==> '0' <= r[i] <= '9'
    ensures r[0] == '0' ==> r == "0"
    ensures DigitsValue(r) == n
    decreases n
  {
    if n < 10 then [DigitChar(n)]
    else
      var r := Decimal(n / 10) + [DigitChar(n % 10)];
      assert r[..|r| - 1] == Decimal(n / 10);
      r
  }

  /** `mock-jwt-${Date.now()}`. */
  function MintToken(now: nat): (t: string)
    ensures |t| > |TOKEN_PREFIX| && t[..|TOKEN_PREFIX|] == TOKEN_PREFIX
  {
    TOKEN_PREFIX + Decimal(now)
  }

  /** Tokens minted at different times differ. */
  lemma {:induction false} MintTokenInjective(a: nat, b: nat)
    ensures MintToken(a) == MintToken(b) ==> a == b
  {
    if MintToken(a) == MintToken(b) {
      assert MintToken(a)[|TOKEN_PREFIX|..] == Decimal(a);
      assert MintToken(b)[|TOKEN_PREFIX|..] == Decimal(b);
    }
  }

  /** Stores `token` under the storage key and in state. */
  function StoreToken(s: AuthState, token: string): AuthState {
    AuthState(Some(token), s.storage[STORAGE_KEY := token])
  }

  datatype LoginResult = LoginResult(state: AuthState, success: bool)

  /** `login`: only the credentials user/pass succeed; a success stores a
      freshly minted token, a failure changes nothing. */
  function Login(s: AuthState, username: string, password: string, now: nat): (r: LoginResult)
    ensures r.success <==> username == VALID_USERNAME && password == VALID_PASSWORD
    ensures !r.success ==> r.state == s
    ensures r.success ==> r.state.token == Some(MintToken(now)) && IsLoggedIn(r.state) && Mirrored(r.state)
    ensures forall k :: k != STORAGE_KEY ==> (k in r.state.storage <==> k in s.storage)
    ensures forall k :: k != STORAGE_KEY && k in s.storage ==> r.state.storage[k] == s.storage[k]
  {
    if username == VALID_USERNAME && password == VALID_PASSWORD then
      LoginResult(StoreToken(s, MintToken(now)), true)
    else
      LoginResult(s, false)
  }

  /** `logout`: the token leaves storage and state. */
  function Logout(s: AuthState): (r: AuthState)
    ensures !IsLoggedIn(r) && Mirrored(r)
    ensures STORAGE_KEY !in r.storage
    ensures forall k :: k != STORAGE_KEY ==> (k in r.storage <==> k in s.storage)
    ensures forall k :: k != STORAGE_KEY && k in s.storage ==> r.storage[k] == s.storage[k]
  {
    AuthState(None, s.storage - {STORAGE_KEY})
  }

  /** `silentRefresh`: while logged in the token is replaced by a fresh one in
      state and storage; otherwise nothing happens. */
  function SilentRefresh(s: AuthState, now: nat): (r: AuthState)
    ensures !IsLoggedIn(s) ==> r == s
    ensures IsLoggedIn(s) ==> IsLoggedIn(r) && Mirrored(r) && r.token == Some(MintToken(now))
    ensures forall k :: k != STORAGE_KEY ==> (k in r.storage <==> k in s.storage)
    ensures forall k :: k != STORAGE_KEY && k in s.storage ==> r.storage[k] == s.storage[k]
  {
    if IsLoggedIn(s) then StoreToken(s, MintToken(now)) else s
  }

  /** Everything that can happen to the context. */
  datatype AuthEvent =
    | LoginAttempt(username: string, password: string, at: nat)
    | LogoutClicked
    | RefreshTick(at: nat)

  function Step(s: AuthState, e: AuthEvent): AuthState {
    match e
    case LoginAttempt(u, p, at) => Login(s, u, p, at).state
    case LogoutClicked => Logout(s)
    case RefreshTick(at) => SilentRefresh(s, at)
  }

  function Run(s: AuthState, events: seq<AuthEvent>): AuthState
    decreases |events|
  {
    if |events| == 0 then s else Run(Step(s, events[0]), events[1..])
  }

  /** Every transition keeps state and storage in agreement. */
  lemma StepMirrored(s: AuthState, e: AuthEvent)
    requires Mirrored(s)
    ensures Mirrored(Step(s, e))
  {
  }

  /** Starting from the token read back from storage, state and storage agree
      after any sequence of logins, logouts and refreshes. */
  lemma {:induction false} RunMirrored(s: AuthState, events: seq<AuthEvent>)
    requires Mirrored(s)
    ensures Mirrored(Run(s, events))
    decreases |events|
  {
    if |events| > 0 {
      StepMirrored(s, events[0]);
      RunMirrored(Step(s, events[0]), events[1..]);
    }
  }

  /** Whatever happened before, a final logout leaves the session logged out. */
  lemma {:induction false} LogoutLast(s: AuthState, events: seq<AuthEvent>)
    requires |events| > 0 && events[|events| - 1] == LogoutClicked
    ensures !IsLoggedIn(Run(s, events))
    decreases |events|
  {
    if |events| > 1 {
      LogoutLast(Step(s, events[0]), events[1..]);
    }
  }

  /** Whatever happened before, a final login with the right credentials
      leaves the session logged in. */
  lemma {:induction false} LoginLast(s: AuthState, events: seq<AuthEvent>, at: nat)
    requires |events| > 0 && events[|events| - 1] == LoginAttempt(VALID_USERNAME, VALID_PASSWORD, at)
    ensures IsLoggedIn(Run(s, events))
    decreases |events|
  {
    if |events| > 1 {
      LoginLast(Step(s, events[0]), events[1..], at);
    }
  }
}

=== FILE: facets.dfy ===
/** The species facet of the data hook: an insertion-ordered map from each
    species URL met in the data to a placeholder label built from the URL. */
module SwapiFacets {
  import opened SwapiTypes
  import opened JsStrings
  import opened Sequences

  /** One entry of the insertion-ordered `Map<string, string>`. */
  datatype SpeciesOption = SpeciesOption(url: string, name: string)

  /** `url.split('/').slice(-2, -1)` rendered as text: the second-to-last
      `/`-piece, or nothing when the URL has no `/`. */
  function SecondToLastSegment(url: string): string {
    var parts := Split(url, '/');
    if |parts| >= 2 then parts[|parts| - 2] else ""
  }

  /** `Species ${...}`: the placeholder label of a species URL. */
  function SpeciesLabel(url: string): string {
    "Species " + SecondToLastSegment(url)
  }

  /** For a URL ending in `/<segment>/<tail>` with no `/` in segment or tail,
      such as `https://swapi.dev/api/species/3/`, the label names the segment. */
  lemma SpeciesLabelNamesSegment(prefix: string, segment: string, tail: string)
    requires '/' !in segment && '/' !in tail
    ensures SpeciesLabel(prefix + "/" + segment + "/" + tail) == "Species " + segment
  {
    var url := prefix + "/" + segment + "/" + tail;
    assert url == prefix + ['/'] + (segment + ['/'] + tail);
    SplitAround(prefix, segment + ['/'] + tail, '/');
    SplitAround(segment, tail, '/');
    SplitFree(segment, '/');
    SplitFree(tail, '/');
  }

  /** A URL without any `/` gets the bare label. */
  lemma SpeciesLabelWithoutSlash(url: string)
    requires '/' !in url
    ensures SpeciesLabel(url) == "Species "
  {
    SplitFree(url, '/');
  }

  function Keys(entries: seq<SpeciesOption>): (keys: seq<string>)
    ensures |keys| == |entries|
    ensures forall i :: 0 <= i < |entries| ==> keys[i] == entries[i].url
  {
    if |entries| == 0 then [] else [entries[0].url] + Keys(entries[1..])
  }

  /** `if (!map.has(url)) map.set(url, label)`. */
  function Insert(entries: seq<SpeciesOption>, url: string): seq<SpeciesOption> {
    if url in Keys(entries) then entries else entries + [SpeciesOption(url, SpeciesLabel(url))]
  }

  /** The inner `char.species.forEach`. */
  function InsertAll(entries: seq<SpeciesOption>, urls: seq<string>): seq<SpeciesOption>
    decreases |urls|
  {
    if |urls| == 0 then entries else InsertAll(Insert(entries, urls[0]), urls[1..])
  }

  /** The outer `allCharacters.forEach`. */
  function InsertCharacters(entries: seq<SpeciesOption>, cs: seq<Character>): seq<SpeciesOption>
    decreases |cs|
  {
    if |cs| == 0 then entries else InsertCharacters(InsertAll(entries, cs[0].species), cs[1..])
  }

  /** The memoised `uniqueSpecies` map, built from an empty map. It lists
      every distinct species URL of the data exactly once, in order of first
      appearance, each with its URL-derived label. */
  function UniqueSpecies(all: seq<Character>): (r: seq<SpeciesOption>)
    ensures FacetOf(r, SpeciesRefs(all))
  {
    InsertCharactersKeeps([], [], all);
    assert [] + SpeciesRefs(all) == SpeciesRefs(all);
    InsertCharacters([], all)
  }

  /** Every species reference of the data, character by character, in list order. */
  function SpeciesRefs(cs: seq<Character>): seq<string> {
    if |cs| == 0 then [] else cs[0].species + SpeciesRefs(cs[1..])
  }

  /** `entries` is the facet map of the references `seen`: its keys are the
      distinct references, ordered by first occurrence, each labelled from its URL. */
  ghost predicate FacetOf(entries: seq<SpeciesOption>, seen: seq<string>) {
    var keys := Keys(entries);
    && NoDuplicates(keys)
    && (forall u :: u in keys <==> u in seen)
    && (forall i, j :: 0 <= i < j < |keys| ==> FirstIndex(seen, keys[i]) < FirstIndex(seen, keys[j]))
    && (forall i :: 0 <= i < |entries| ==> entries[i].name == SpeciesLabel(entries[i].url))
  }

  lemma InsertKeeps(entries: seq<SpeciesOption>, seen: seq<string>, url: string)
    requires FacetOf(entries, seen)
    ensures FacetOf(Insert(entries, url), seen + [url])
  {
    if url in Keys(entries) {
      InsertPresent(entries, seen, url);
    } else {
      InsertAbsent(entries, seen, url);
    }
  }

  /** Appending to the references never moves a first occurrence already seen. */
  lemma FirstIndicesKept(seen: seq<string>, url: string)
    ensures forall u :: u in seen ==> FirstIndex(seen + [url], u) == FirstIndex(seen, u)
  {
    forall u | u in seen
      ensures FirstIndex(seen + [url], u) == FirstIndex(seen, u)
    {
      FirstIndexAppend(seen, url, u);
    }
  }

  /** A URL already present leaves the entries, and their order, as they are. */
  lemma InsertPresent(entries: seq<SpeciesOption>, seen: seq<string>, url: string)
    requires FacetOf(entries, seen) && url in Keys(entries)
    ensures FacetOf(Insert(entries, url), seen + [url])
  {
    var keys := Keys(entries);
    FirstIndicesKept(seen, url);
    assert forall i :: 0 <= i < |keys| ==> keys[i] in seen;
  }

  /** A new URL goes last, and its first occurrence is the new last reference. */
  lemma InsertAbsent(entries: seq<SpeciesOption>, seen: seq<string>, url: string)
    requires FacetOf(entries, seen) && url !in Keys(entries)
    ensures FacetOf(Insert(entries, url), seen + [url])
  {
    var keys := Keys(entries);
    assert Keys(Insert(entries, url)) == keys + [url];
    AppendKeepsOrder(keys, seen, url);
  }

  /** Keys ordered by first occurrence in `seen` stay ordered when a key not
      yet among them is appended to both. */
  lemma AppendKeepsOrder(keys: seq<string>, seen: seq<string>, url: string)
    requires forall u :: u in keys <==> u in seen
    requires forall i, j :: 0 <= i < j < |keys| ==> FirstIndex(seen, keys[i]) < FirstIndex(seen, keys[j])
    requires url !in keys
    ensures forall i, j :: 0 <= i < j < |keys + [url]| ==>
      FirstIndex(seen + [url], (keys + [url])[i]) < FirstIndex(seen + [url], (keys + [url])[j])
  {
    var rkeys := keys + [url];
    var seen' := seen + [url];
    FirstIndicesKept(seen, url);
    FirstIndexUnique(seen', url, |seen|);
    forall i, j | 0 <= i < j < |rkeys|
      ensures FirstIndex(seen', rkeys[i]) < FirstIndex(seen', rkeys[j])
    {
      assert rkeys[i] == keys[i];
      assert rkeys[i] in seen;
      if j < |keys| {
        assert rkeys[j] == keys[j];
      }
    }
  }

  lemma {:induction false} InsertAllKeeps(entries: seq<SpeciesOption>, seen: seq<string>, urls: seq<string>)
    requires FacetOf(entries, seen)
    ensures FacetOf(InsertAll(entries, urls), seen + urls)
    decreases |urls|
  {
    if |urls| == 0 {
      assert seen + urls == seen;
    } else {
      var seen' := seen + [urls[0]];
      assert seen' + urls[1..] == seen + urls;
      InsertKeeps(entries, seen, urls[0]);
      InsertAllKeeps(Insert(entries, urls[0]), seen', urls[1..]);
    }
  }

  lemma {:induction false} InsertCharactersKeeps(entries: seq<SpeciesOption>, seen: seq<string>, cs: seq<Character>)
    requires FacetOf(entries, seen)
    ensures FacetOf(InsertCharacters(entries, cs), seen + SpeciesRefs(cs))
    decreases |cs|
  {
    if |cs| == 0 {
      assert seen + SpeciesRefs(cs) == seen;
    } else {
      var seen' := seen + cs[0].species;
      assert seen' + SpeciesRefs(cs[1..]) == seen + SpeciesRefs(cs);
      InsertAllKeeps(entries, seen, cs[0].species);
      InsertCharactersKeeps(InsertAll(entries, cs[0].species), seen', cs[1..]);
    }
  }
}

=== FILE: filtering.dfy ===
/** The search-and-filter step of the data hook: a case-insensitive name
    search, an exact species-URL membership test and an exact homeworld-URL
    test, each applied only when its criterion is non-empty. */
module SwapiFilter {
  import opened SwapiTypes
  import opened JsStrings
  import opened Sequences

  /** The filter selection. `filmUrl` is carried but never applied. */
  datatype Filters = Filters(speciesUrl: string, homeworldUrl: string, filmUrl: string)

  /** One `Array.prototype.filter` pass of the memoised filter. */
  datatype Criterion =
    | NameContains(term: string)
    | SpeciesIncludes(speciesUrl: string)
    | HomeworldIs(homeworldUrl: string)

  predicate Satisfies(c: Character, k: Criterion) {
    match k
    case NameContains(term) => Includes(ToLower(c.name), ToLower(term))
    case SpeciesIncludes(url) => url in c.species
    case HomeworldIs(url) => c.homeworld == url
  }

  /** `cs.filter(c => Satisfies(c, k))`. */
  function Keep(cs: seq<Character>, k: Criterion): (r: seq<Character>)
    ensures |r| <= |cs|
    ensures forall c :: c in r <==> c in cs && Satisfies(c, k)
  {
    if |cs| == 0 then []
    else if Satisfies(cs[0], k) then [cs[0]] + Keep(cs[1..], k)
    else Keep(cs[1..], k)
  }

  /** The memoised filter: each non-empty criterion narrows the previous
      result, in the order search, species, homeworld. */
  function FilterCharacters(all: seq<Character>, searchTerm: string, filters: Filters): (r: seq<Character>)
    ensures r == Select(all, searchTerm, filters)
    ensures IsSubsequence(r, all)
    ensures forall c :: c in r <==> c in all && Matches(c, searchTerm, filters)
    ensures searchTerm == "" && filters.speciesUrl == "" && filters.homeworldUrl == "" ==> r == all
  {
    var bySearch := if searchTerm != "" then Keep(all, NameContains(searchTerm)) else all;
    var bySpecies := if filters.speciesUrl != "" then Keep(bySearch, SpeciesIncludes(filters.speciesUrl)) else bySearch;
    var r := if filters.homeworldUrl != "" then Keep(bySpecies, HomeworldIs(filters.homeworldUrl)) else bySpecies;
    FilterIsSelection(all, searchTerm, filters);
    SelectIsSubsequence(all, searchTerm, filters);
    SubsequenceReflexive(all);
    r
  }

  /** A character meets every active criterion; an empty criterion admits all. */
  predicate Matches(c: Character, searchTerm: string, filters: Filters) {
    && (searchTerm != "" ==> Includes(ToLower(c.name), ToLower(searchTerm)))
    && (filters.speciesUrl != "" ==> filters.speciesUrl in c.species)
    && (filters.homeworldUrl != "" ==> c.homeworld == filters.homeworldUrl)
  }

  /** Reference definition: one pass keeping the matching characters. */
  function Select(all: seq<Character>, searchTerm: string, filters: Filters): seq<Character> {
    if |all| == 0 then []
    else if Matches(all[0], searchTerm, filters) then [all[0]] + Select(all[1..], searchTerm, filters)
    else Select(all[1..], searchTerm, filters)
  }

  /** The three successive passes keep exactly what one pass over the
      conjunction keeps, copies and order included. */
  lemma {:induction false} FilterIsSelection(all: seq<Character>, searchTerm: string, filters: Filters)
    ensures
      var bySearch := if searchTerm != "" then Keep(all, NameContains(searchTerm)) else all;
      var bySpecies := if filters.speciesUrl != "" then Keep(bySearch, SpeciesIncludes(filters.speciesUrl)) else bySearch;
      var r := if filters.homeworldUrl != "" then Keep(bySpecies, HomeworldIs(filters.homeworldUrl)) else bySpecies;
      r == Select(all, searchTerm, filters)
    decreases |all|
  {
    if |all| > 0 {
      FilterIsSelection(all[1..], searchTerm, filters);
    }
  }

  lemma {:induction false} SelectIsSubsequence(all: seq<Character>, searchTerm: string, filters: Filters)
    ensures IsSubsequence(Select(all, searchTerm, filters), all)
    ensures forall c :: c in Select(all, searchTerm, filters) <==> c in all && Matches(c, searchTerm, filters)
    decreases |all|
  {
    if |all| > 0 {
      SelectIsSubsequence(all[1..], searchTerm, filters);
      assert all == [all[0]] + all[1..];
      var r := Select(all, searchTerm, filters);
      if Matches(all[0], searchTerm, filters) {
        assert r[1..] == Select(all[1..], searchTerm, filters);
      }
    }
  }

  /** The film selection never changes the filtered list. */
  lemma FilmUrlIgnored(all: seq<Character>, searchTerm: string, filters: Filters, filmUrl: string)
    ensures FilterCharacters(all, searchTerm, filters) == FilterCharacters(all, searchTerm, filters.(filmUrl := filmUrl))
  {
  }

  /** With only a search term, the filter is the case-insensitive name search:
      every kept name contains the term, ignoring case, and every name that
      does is kept (`IncludesIff` turns "contains" into an occurrence position). */
  lemma SearchOnly(all: seq<Character>, searchTerm: string, filters: Filters)
    requires searchTerm != "" && filters.speciesUrl == "" && filters.homeworldUrl == ""
    ensures FilterCharacters(all, searchTerm, filters) == Keep(all, NameContains(searchTerm))
    ensures forall c :: c in FilterCharacters(all, searchTerm, filters) <==>
      c in all && Includes(ToLower(c.name), ToLower(searchTerm))
  {
  }
}

=== FILE: helper.dfy ===
/** The card colour lookup: a species name picks a pair of style classes. */
module Helper {

  const DROID_CLASS: string := "bg-gray-200 border-gray-400"
  const HUMAN_CLASS: string := "bg-blue-100 border-blue-400"
  const WOOKIEE_CLASS: string := "bg-yellow-200 border-yellow-400"
  const YODA_CLASS: string := "bg-green-200 border-green-400"
  const DEFAULT_CLASS: string := "bg-red-100 border-red-400"

  const SPECIES_COLOR_MAP: map<string, string> := map[
    "Droid" := DROID_CLASS,
    "Human" := HUMAN_CLASS,
    "Wookiee" := WOOKIEE_CLASS,
    "Yoda" := YODA_CLASS,
    "default" := DEFAULT_CLASS]

  /** `SPECIES_COLOR_MAP[name] || SPECIES_COLOR_MAP['default']`: a missing or
      empty entry falls back to the default. */
  function CardColorBySpecies(speciesName: string): (classes: string)
    ensures classes in SPECIES_COLOR_MAP.Values
    ensures speciesName in SPECIES_COLOR_MAP ==> classes == SPECIES_COLOR_MAP[speciesName]
    ensures speciesName !in SPECIES_COLOR_MAP ==> classes == DEFAULT_CLASS
  {
    if speciesName in SPECIES_COLOR_MAP && SPECIES_COLOR_MAP[speciesName] != "" then
      SPECIES_COLOR_MAP[speciesName]
    else
      SPECIES_COLOR_MAP["default"]
  }

  /** The four named species and one unknown name. */
  lemma CardColorExamples()
    ensures CardColorBySpecies("Droid") == DROID_CLASS
    ensures CardColorBySpecies("Human") == HUMAN_CLASS
    ensures CardColorBySpecies("Wookiee") == WOOKIEE_CLASS
    ensures CardColorBySpecies("Yoda") == YODA_CLASS
    ensures CardColorBySpecies("Unknown") == DEFAULT_CLASS
  {
  }
}

=== FILE: homepage.dfy ===
/** The home page's data logic: enriching each character of the current page
    with a species name, whether a search or filter is active, and the
    clear-search-and-filters action. */
module Homepage {
  import opened SwapiTypes
  import opened SwapiFilter
  import opened SwapiData
  import opened SwapiPaging
  import opened Numbers

  const UNKNOWN: string := "Unknown"
  const HUMAN: string := "Human"

  /** `fetchSpeciesName(url)`. `lookup(url)` stands for the GET request: the
      `name` of the species returned, or None when the request or parse fails. */
  function FetchSpeciesName(lookup: string -> Option<string>, url: string): (name: string)
  {
    lookup(url).GetOr(UNKNOWN)
  }

  /** A character together with its resolved species name; every field of the
      character is carried over unchanged. */
  datatype CharacterWithSpecies = CharacterWithSpecies(character: Character, speciesName: string)

  /** The per-character enrichment: the first species URL is resolved; a
      character without species is labelled "Human". */
  function EnrichOne(c: Character, lookup: string -> Option<string>): CharacterWithSpecies {
    var name := if |c.species| > 0 then FetchSpeciesName(lookup, c.species[0]) else HUMAN;
    CharacterWithSpecies(c, name)
  }

  /** `Promise.all(characters.map(...))` once every request has settled. */
  function EnrichAll(page: seq<Character>, lookup: string -> Option<string>): (r: seq<CharacterWithSpecies>)
    ensures |r| == |page|
    ensures forall i :: 0 <= i < |r| ==> r[i].character == page[i]
    ensures forall i :: 0 <= i < |r| && |page[i].species| == 0 ==> r[i].speciesName == HUMAN
    ensures forall i :: 0 <= i < |r| && |page[i].species| > 0 && lookup(page[i].species[0]).Some? ==>
      r[i].speciesName == lookup(page[i].species[0]).value
    ensures forall i :: 0 <= i < |r| && |page[i].species| > 0 && lookup(page[i].species[0]).None? ==>
      r[i].speciesName == UNKNOWN
  {
    if |page| == 0 then [] else [EnrichOne(page[0], lookup)] + EnrichAll(page[1..], lookup)
  }

  /** The fallback when the join itself throws: every character labelled "Unknown". */
  function AllUnknown(page: seq<Character>): (r: seq<CharacterWithSpecies>)
    ensures |r| == |page|
    ensures forall i :: 0 <= i < |r| ==> r[i].character == page[i] && r[i].speciesName == UNKNOWN
  {
    if |page| == 0 then [] else [CharacterWithSpecies(page[0], UNKNOWN)] + AllUnknown(page[1..])
  }

  /** Dropping the species names gives back the characters. */
  function BaseCharacters(enriched: seq<CharacterWithSpecies>): seq<Character> {
    if |enriched| == 0 then [] else [enriched[0].character] + BaseCharacters(enriched[1..])
  }

  lemma {:induction false} CharactersOfSamePage(enriched: seq<CharacterWithSpecies>, page: seq<Character>)
    requires |enriched| == |page|
    requires forall i :: 0 <= i < |page| ==> enriched[i].character == page[i]
    ensures BaseCharacters(enriched) == page
    decreases |page|
  {
    if |page| > 0 {
      CharactersOfSamePage(enriched[1..], page[1..]);
      assert page == [page[0]] + page[1..];
    }
  }

  /** How the awaited join ended. */
  datatype JoinOutcome = Settled | Threw

  /** The enriched list and the "resolving species" flag. */
  datatype EnrichState = EnrichState(enriched: seq<CharacterWithSpecies>, isEnriching: bool)

  /** The enrichment effect, run on a new page of characters. An empty page
      clears the list and returns early, leaving the flag alone. Otherwise the
      list becomes one enriched record per character, in page order, and the
      flag is lowered when the effect ends. */
  function EnrichData(s: EnrichState, page: seq<Character>, lookup: string -> Option<string>,
                      join: JoinOutcome): (r: EnrichState)
    ensures |page| == 0 ==> r.enriched == [] && r.isEnriching == s.isEnriching
    ensures |page| > 0 ==> !r.isEnriching
    ensures BaseCharacters(r.enriched) == page
    ensures join == Threw ==> forall i :: 0 <= i < |r.enriched| ==> r.enriched[i].speciesName == UNKNOWN
    ensures join == Settled ==> r.enriched == EnrichAll(page, lookup)
  {
    if |page| == 0 then
      s.(enriched := [])
    else
      var enriching := s.(isEnriching := true);
      var enriched := match join
        case Settled => EnrichAll(page, lookup)
        case Threw => AllUnknown(page);
      CharactersOfSamePage(enriched, page);
      enriching.(enriched := enriched, isEnriching := false)
  }

  /** The flag is never left raised: if it starts lowered it ends lowered. */
  lemma EnrichingFlagSettles(s: EnrichState, page: seq<Character>, lookup: string -> Option<string>,
                             join: JoinOutcome)
    requires !s.isEnriching
    ensures !EnrichData(s, page, lookup, join).isEnriching
  {
  }

  /** `isSearchOrFilterActive`: some search text or filter selection is set. */
  function IsSearchOrFilterActive(searchTerm: string, filters: Filters): (active: bool)
    ensures active <==> !(searchTerm == "" && filters == NO_FILTERS)
    ensures !active ==> forall all :: FilterCharacters(all, searchTerm, filters) == all
  {
    searchTerm != "" || filters.speciesUrl != "" || filters.homeworldUrl != "" || filters.filmUrl != ""
  }

  /** Without an active search or filter every character is listed. */
  lemma InactiveListsEverything(all: seq<Character>, searchTerm: string, filters: Filters)
    requires !IsSearchOrFilterActive(searchTerm, filters)
    ensures FilterCharacters(all, searchTerm, filters) == all
  {
  }

  /** A film selection alone counts as active, though it filters nothing out. */
  lemma FilmOnlyIsActiveYetUnfiltered(all: seq<Character>, filmUrl: string)
    requires filmUrl != ""
    ensures IsSearchOrFilterActive("", Filters("", "", filmUrl))
    ensures FilterCharacters(all, "", Filters("", "", filmUrl)) == all
  {
  }

  /** The "Clear Search & Filters" action: empty search, empty filters, page 1.
      Afterwards nothing is active and the first page of the whole list shows. */
  function ClearSearchAndFilters(s: SwapiState): (r: SwapiState)
    ensures !IsSearchOrFilterActive(r.searchTerm, r.filters)
    ensures r.currentPage == 1
    ensures r.allCharacters == s.allCharacters && r.isLoading == s.isLoading && r.error == s.error
    ensures SwapiData.Characters(r) == s.allCharacters[..Min(ITEMS_PER_PAGE, |s.allCharacters|)]
    ensures TotalPagesOf(r) == TotalPages(|s.allCharacters|)
  {
    SetPage(SetFilters(SetSearchTerm(s, ""), NO_FILTERS), 1)
  }
}

=== FILE: js_strings.dfy ===
/** The JavaScript string built-ins the core relies on: `toLowerCase`,
    `includes` and `split` with a one-character separator. */
module JsStrings {

  predicate IsUpper(c: char) {
    'A' <= c <= 'Z'
  }

  /** Lower-cases one ASCII letter; every other character is kept. */
  function LowerChar(c: char): (d: char)
    ensures !IsUpper(d)
    ensures IsUpper(c) ==> d as int == c as int + 32
    ensures !IsUpper(c) ==> d == c
  {
    if IsUpper(c) then (c as int + 32) as char else c
  }

  /** `s.toLowerCase()`, restricted to ASCII letters. */
  function ToLower(s: string): (r: string)
    ensures |r| == |s|
    ensures forall i :: 0 <= i < |r| ==> !IsUpper(r[i])
    ensures forall i :: 0 <= i < |r| && !IsUpper(s[i]) ==> r[i] == s[i]
    ensures forall i :: 0 <= i < |r| && IsUpper(s[i]) ==> r[i] as int == s[i] as int + 32
  {
    if |s| == 0 then "" else [LowerChar(s[0])] + ToLower(s[1..])
  }

  /** `t` occurs in `s` starting at position `i`. */
  ghost predicate OccursAt(s: string, t: string, i: int) {
    0 <= i && i + |t| <= |s| && s[i..i + |t|] == t
  }

  predicate StartsWith(s: string, t: string) {
    |t| <= |s| && s[..|t|] == t
  }

  /** `s.includes(t)`: scans every start position of `s`. */
  predicate Includes(s: string, t: string)
    decreases |s|
  {
    StartsWith(s, t) || (|s| > 0 && Includes(s[1..], t))
  }

  /** `Includes` holds exactly when some position of `s` starts a copy of `t`. */
  lemma {:induction false} IncludesIff(s: string, t: string)
    ensures Includes(s, t) <==> exists i :: OccursAt(s, t, i)
    decreases |s|
  {
    if StartsWith(s, t) {
      assert OccursAt(s, t, 0);
    }
    if |s| > 0 {
      IncludesIff(s[1..], t);
      if Includes(s[1..], t) {
        var i :| OccursAt(s[1..], t, i);
        assert s[1..][i..i + |t|] == s[i + 1..i + 1 + |t|];
        assert OccursAt(s, t, i + 1);
      }
      if i :| OccursAt(s, t, i) {
        if i > 0 {
          assert s[1..][i - 1..i - 1 + |t|] == s[i..i + |t|];
          assert OccursAt(s[1..], t, i - 1);
        } else {
          assert StartsWith(s, t);
        }
      }
    } else {
      if i :| OccursAt(s, t, i) {
        assert i == 0 && |t| == 0;
        assert StartsWith(s, t);
      }
    }
  }

  /** `parts.join(sep)`. */
  function Join(parts: seq<string>, sep: char): string
    requires |parts| >= 1
  {
    if |parts| == 1 then parts[0] else parts[0] + [sep] + Join(parts[1..], sep)
  }

  /** `s.split(sep)`: the maximal `sep`-free pieces between separators; the
      empty string splits into one empty piece. */
  function Split(s: string, sep: char): (parts: seq<string>)
    ensures |parts| >= 1
    ensures forall k :: 0 <= k < |parts| ==> sep !in parts[k]
    ensures Join(parts, sep) == s
    decreases |s|
  {
    if |s| == 0 then [""]
    else
      var rest := Split(s[1..], sep);
      assert s == [s[0]] + s[1..];
      if s[0] == sep then
        [""] + rest
      else
        var parts := [[s[0]] + rest[0]] + rest[1..];
        assert parts[1..] == rest[1..];
        parts
  }

  /** Splitting a joined list of separator-free pieces gives the pieces back. */
  lemma {:induction false} SplitJoin(parts: seq<string>, sep: char)
    requires |parts| >= 1
    requires forall k :: 0 <= k < |parts| ==> sep !in parts[k]
    ensures Split(Join(parts, sep), sep) == parts
    decreases parts
  {
    if |parts| == 1 {
      SplitFree(parts[0], sep);
    } else {
      SplitJoin(parts[1..], sep);
      SplitAround(parts[0], Join(parts[1..], sep), sep);
      SplitFree(parts[0], sep);
      assert parts == [parts[0]] + parts[1..];
    }
  }

  /** A separator-free string is a single piece. */
  lemma {:induction false} SplitFree(s: string, sep: char)
    requires sep !in s
    ensures Split(s, sep) == [s]
    decreases |s|
  {
    if |s| > 0 {
      SplitFree(s[1..], sep);
      assert s == [s[0]] + s[1..];
    }
  }

  /** One unfolding of `Split` on a non-empty string. */
  lemma SplitStep(s: string, sep: char)
    requires |s| > 0
    ensures s[0] == sep ==> Split(s, sep) == [""] + Split(s[1..], sep)
    ensures s[0] != sep ==>
      Split(s, sep) == [[s[0]] + Split(s[1..], sep)[0]] + Split(s[1..], sep)[1..]
  {
  }

  /** Splitting at a separator splits the two sides independently. */
  lemma {:induction false} SplitAround(a: string, b: string, sep: char)
    ensures Split(a + [sep] + b, sep) == Split(a, sep) + Split(b, sep)
    decreases |a|
  {
    var s := a + [sep] + b;
    if |a| == 0 {
      assert s == [sep] + b;
      SplitStep(s, sep);
      assert s[1..] == b;
    } else {
      assert s[1..] == a[1..] + [sep] + b;
      SplitAround(a[1..], b, sep);
      SplitStep(s, sep);
      SplitStep(a, sep);
      var restA := Split(a[1..], sep);
      var rest := Split(s[1..], sep);
      assert rest == restA + Split(b, sep);
      if a[0] != sep {
        assert rest[0] == restA[0];
        assert rest[1..] == restA[1..] + Split(b, sep);
      }
    }
  }
}

=== FILE: numbers.dfy ===
/** Integer helpers shared by the paging window and the page-number bar. */
module Numbers {

  function Min(a: int, b: int): (m: int)
    ensures m <= a && m <= b
    ensures m == a || m == b
  {
    if a <= b then a else b
  }

  function Max(a: int, b: int): (m: int)
    ensures m >= a && m >= b
    ensures m == a || m == b
  {
    if a >= b then a else b
  }
}

=== FILE: pagination.dfy ===
/** The page-number bar: which page numbers to show around the current page,
    where to put ellipses, and when the first/previous/next/last buttons are
    disabled. */
module Pagination {
  import opened SwapiTypes
  import opened Numbers

  /** One entry of the bar: a page-number button or the `'...'` separator. */
  datatype PageItem = Num(page: int) | Dots

  /** `range(start, end)`: the consecutive page numbers `start..end`; nothing
      when `end < start` (a negative `Array.from` length counts as zero). */
  function Range(start: int, end: int): (r: seq<PageItem>)
    ensures |r| == if end < start then 0 else end - start + 1
    ensures forall i :: 0 <= i < |r| ==> r[i] == Num(start + i)
    decreases end - start
  {
    if end < start then [] else [Num(start)] + Range(start + 1, end)
  }

  /** The return statement of the bar computation that applies. */
  datatype Shape = Full | RightDots | LeftDots | BothDots | Fallback

  /** The branch taken when the bar is truncated once there are more than
      `threshold` pages. */
  function ShapeOf(threshold: int, totalPages: int, currentPage: int, siblingCount: nat): Shape {
    if threshold >= totalPages then Full
    else
      var leftSibling := Max(currentPage - siblingCount, 1);
      var rightSibling := Min(currentPage + siblingCount, totalPages);
      var showLeftDots := leftSibling > 2;
      var showRightDots := rightSibling < totalPages - 2;
      if !showLeftDots && showRightDots then RightDots
      else if showLeftDots && !showRightDots then LeftDots
      else if showLeftDots && showRightDots then BothDots
      else Fallback
  }

  /** The bar for a given truncation threshold. */
  function Bar(threshold: int, totalPages: int, currentPage: int, siblingCount: nat): seq<PageItem> {
    var itemCount := 3 + 2 * siblingCount;
    match ShapeOf(threshold, totalPages, currentPage, siblingCount)
    case Full => Range(1, totalPages)
    case RightDots => Range(1, itemCount) + [Dots, Num(totalPages)]
    case LeftDots => [Num(1), Dots] + Range(totalPages - itemCount + 1, totalPages)
    case BothDots =>
      [Num(1), Dots] + Range(Max(currentPage - siblingCount, 1), Min(currentPage + siblingCount, totalPages))
      + [Dots, Num(totalPages)]
    case Fallback => Range(1, totalPages)
  }

  /** A well-formed bar starts at page 1 and ends at the last page; adjacent
      numbers are consecutive pages, and each ellipsis sits between two numbers
      and stands for at least one page that is not shown. */
  predicate WellFormedBar(r: seq<PageItem>, totalPages: int) {
    && |r| >= 1
    && r[0] == Num(1)
    && r[|r| - 1] == Num(totalPages)
    && (forall i :: 0 <= i < |r| - 1 && r[i].Num? && r[i + 1].Num? ==> r[i + 1].page == r[i].page + 1)
    && (forall i :: 0 < i < |r| - 1 && r[i].Dots? ==>
          r[i - 1].Num? && r[i + 1].Num? && r[i - 1].page + 1 < r[i + 1].page)
  }

  /** In a well-formed bar the page numbers strictly increase and all lie
      between 1 and the last page. */
  lemma {:induction false} WellFormedIncreasing(r: seq<PageItem>, totalPages: int, j: nat)
    requires WellFormedBar(r, totalPages)
    requires j < |r|
    ensures forall i :: 0 <= i < j && r[i].Num? && r[j].Num? ==> r[i].page < r[j].page
    ensures r[j].Num? ==> 1 <= r[j].page
    decreases j
  {
    if j > 0 {
      WellFormedIncreasing(r, totalPages, j - 1);
      if j >= 2 && r[j - 1].Dots? {
        WellFormedIncreasing(r, totalPages, j - 2);
      }
    }
  }

  /** Every page number of a well-formed bar is a real page. */
  lemma WellFormedInRange(r: seq<PageItem>, totalPages: int)
    requires WellFormedBar(r, totalPages)
    ensures forall i :: 0 <= i < |r| && r[i].Num? ==> 1 <= r[i].page <= totalPages
  {
    forall i | 0 <= i < |r| && r[i].Num?
      ensures 1 <= r[i].page <= totalPages
    {
      WellFormedIncreasing(r, totalPages, i);
      WellFormedIncreasing(r, totalPages, |r| - 1);
    }
  }

  lemma FullBar(totalPages: int)
    requires totalPages >= 1
    ensures WellFormedBar(Range(1, totalPages), totalPages)
  {
  }

  lemma RightDotsBar(m: int, totalPages: int)
    requires 1 <= m && m + 1 < totalPages
    ensures WellFormedBar(Range(1, m) + [Dots, Num(totalPages)], totalPages)
  {
    var r := Range(1, m) + [Dots, Num(totalPages)];
    assert r[|r| - 2] == Dots;
  }

  lemma LeftDotsBar(a: int, totalPages: int)
    requires 2 < a <= totalPages
    ensures WellFormedBar([Num(1), Dots] + Range(a, totalPages), totalPages)
  {
    var r := [Num(1), Dots] + Range(a, totalPages);
    assert r[2] == Num(a);
  }

  lemma BothDotsBar(a: int, b: int, totalPages: int)
    requires 2 < a <= b && b + 1 < totalPages
    ensures WellFormedBar([Num(1), Dots] + Range(a, b) + [Dots, Num(totalPages)], totalPages)
  {
    var r := [Num(1), Dots] + Range(a, b) + [Dots, Num(totalPages)];
    assert r[2] == Num(a);
    assert r[|r| - 3] == Num(b);
    assert r[|r| - 2] == Dots;
  }

  /** Once truncation needs room for the first and last page, the current page,
      its siblings and two ellipses that each hide a page (`2s + 5` pages), the
      fallback branch cannot be reached. */
  lemma NoFallback(threshold: int, totalPages: int, currentPage: int, siblingCount: nat)
    requires threshold >= 2 * siblingCount + 4
    ensures ShapeOf(threshold, totalPages, currentPage, siblingCount) != Fallback
  {
  }

  /** Under the same room condition the bar is well formed for every current page. */
  lemma BarWellFormed(threshold: int, totalPages: int, currentPage: int, siblingCount: nat)
    requires threshold >= 2 * siblingCount + 4
    requires totalPages >= 1
    ensures WellFormedBar(Bar(threshold, totalPages, currentPage, siblingCount), totalPages)
  {
    var s := siblingCount;
    var r := Bar(threshold, totalPages, currentPage, s);
    var shape := ShapeOf(threshold, totalPages, currentPage, s);
    if shape == RightDots {
      assert 3 + 2 * s + 1 < totalPages;
      assert r == Range(1, 3 + 2 * s) + [Dots, Num(totalPages)];
      RightDotsBar(3 + 2 * s, totalPages);
    } else if shape == LeftDots {
      assert 2 < totalPages - (3 + 2 * s) + 1;
      assert r == [Num(1), Dots] + Range(totalPages - (3 + 2 * s) + 1, totalPages);
      LeftDotsBar(totalPages - (3 + 2 * s) + 1, totalPages);
    } else if shape == BothDots {
      var a := Max(currentPage - s, 1);
      var b := Min(currentPage + s, totalPages);
      assert 2 < a <= b && b + 1 < totalPages;
      assert r == [Num(1), Dots] + Range(a, b) + [Dots, Num(totalPages)];
      BothDotsBar(a, b, totalPages);
    } else {
      assert r == Range(1, totalPages);
      FullBar(totalPages);
    }
  }

  /** Under the same room condition the current page and its in-range siblings
      are always shown. */
  lemma SiblingsShown(threshold: int, totalPages: int, currentPage: int, siblingCount: nat, p: int)
    requires threshold >= 2 * siblingCount + 4
    requires 1 <= p <= totalPages && currentPage - siblingCount <= p <= currentPage + siblingCount
    ensures Num(p) in Bar(threshold, totalPages, currentPage, siblingCount)
  {
    var s := siblingCount;
    var r := Bar(threshold, totalPages, currentPage, s);
    match ShapeOf(threshold, totalPages, currentPage, s)
    case Full => assert r[p - 1] == Num(p);
    case RightDots => assert r[p - 1] == Num(p);
    case LeftDots =>
      var a := totalPages - (3 + 2 * s) + 1;
      assert r[2 + p - a] == Num(p);
    case BothDots =>
      var a := Max(currentPage - s, 1);
      assert r[2 + p - a] == Num(p);
    case Fallback => assert false;
  }

  /** `usePagination` as written: the bar is truncated once there are more
      than `siblingCount + 5` pages. With an untruncated bar every page is
      listed; a truncated bar always runs from page 1 to the last page. */
  function PaginationRange(totalPages: int, currentPage: int, siblingCount: nat): (r: seq<PageItem>)
    ensures totalPages <= siblingCount + 5 ==>
      Dots !in r && |r| == Max(totalPages, 0) && forall i :: 0 <= i < |r| ==> r[i] == Num(i + 1)
    ensures totalPages > siblingCount + 5 ==> |r| >= 3 && r[0] == Num(1) && r[|r| - 1] == Num(totalPages)
    ensures siblingCount <= 1 && totalPages >= 1 ==> WellFormedBar(r, totalPages)
  {
    var r := Bar(siblingCount + 5, totalPages, currentPage, siblingCount);
    if siblingCount <= 1 && totalPages >= 1 then
      BarWellFormed(siblingCount + 5, totalPages, currentPage, siblingCount); r
    else
      r
  }

  /** With one sibling the "default case" return can never be taken, whatever
      the current page. */
  lemma FallbackUnreachable(totalPages: int, currentPage: int)
    ensures ShapeOf(1 + 5, totalPages, currentPage, 1) != Fallback
  {
    NoFallback(1 + 5, totalPages, currentPage, 1);
  }

  /** With two siblings it can: eight pages with page 4 current take the fallback. */
  lemma FallbackReachableWithTwoSiblings()
    ensures ShapeOf(2 + 5, 8, 4, 2) == Fallback
  {
  }

  /** The bar the component shows (one sibling), in closed form, for more than
      six pages: the first five pages while the current page is at most 3, the
      last five from three pages before the end on, and otherwise the current
      page with one neighbour on each side. */
  lemma BarWithOneSibling(totalPages: int, currentPage: int)
    requires totalPages >= 7
    ensures var r := PaginationRange(totalPages, currentPage, 1);
      && (currentPage <= 3 ==>
            r == [Num(1), Num(2), Num(3), Num(4), Num(5), Dots, Num(totalPages)])
      && (currentPage >= totalPages - 3 ==>
            r == [Num(1), Dots, Num(totalPages - 4), Num(totalPages - 3), Num(totalPages - 2),
                  Num(totalPages - 1), Num(totalPages)])
      && (4 <= currentPage <= totalPages - 4 ==>
            r == [Num(1), Dots, Num(currentPage - 1), Num(currentPage), Num(currentPage + 1),
                  Dots, Num(totalPages)])
  {
    var r := PaginationRange(totalPages, currentPage, 1);
    if currentPage <= 3 {
      var m := Range(1, 5);
      assert m == [Num(1), Num(2), Num(3), Num(4), Num(5)];
    } else if currentPage >= totalPages - 3 {
      var m := Range(totalPages - 4, totalPages);
      assert m == [Num(totalPages - 4), Num(totalPages - 3), Num(totalPages - 2), Num(totalPages - 1), Num(totalPages)];
    } else {
      var m := Range(currentPage - 1, currentPage + 1);
      assert m == [Num(currentPage - 1), Num(currentPage), Num(currentPage + 1)];
    }
  }

  /** As written, two siblings on eight pages put an ellipsis between pages 7
      and 8, standing for no page at all. */
  lemma EmptyEllipsisWithTwoSiblings()
    ensures var r := PaginationRange(8, 1, 2);
      r[6] == Num(7) && r[7] == Dots && r[8] == Num(8) && !WellFormedBar(r, 8)
  {
    var r := PaginationRange(8, 1, 2);
    assert r == Range(1, 7) + [Dots, Num(8)];
    assert r[6] == Num(7) && r[7] == Dots && r[8] == Num(8);
  }

  /** As written, three siblings on nine pages list page 9 twice, with an
      ellipsis between the two. */
  lemma RepeatedPageWithThreeSiblings()
    ensures var r := PaginationRange(9, 1, 3);
      r[8] == Num(9) && r[9] == Dots && r[10] == Num(9) && !WellFormedBar(r, 9)
  {
    var r := PaginationRange(9, 1, 3);
    assert r == Range(1, 9) + [Dots, Num(9)];
    assert r[8] == Num(9) && r[9] == Dots && r[10] == Num(9);
  }

  /** As written, four siblings on ten pages list a page 11 that does not exist. */
  lemma PastLastPageWithFourSiblings()
    ensures var r := PaginationRange(10, 1, 4);
      r[10] == Num(11) && !WellFormedBar(r, 10)
  {
    var r := PaginationRange(10, 1, 4);
    assert r == Range(1, 11) + [Dots, Num(10)];
    assert r[10] == Num(11) && r[11] == Dots && r[12] == Num(10);
  }

  /** The corrected bar: truncate only once there are at least `2s + 5` pages. */
  function FixedPaginationRange(totalPages: int, currentPage: int, siblingCount: nat): (r: seq<PageItem>)
    ensures totalPages >= 1 ==> WellFormedBar(r, totalPages)
    ensures ShapeOf(2 * siblingCount + 4, totalPages, currentPage, siblingCount) != Fallback
    ensures forall p :: 1 <= p <= totalPages && currentPage - siblingCount <= p <= currentPage + siblingCount
                        ==> Num(p) in r
  {
    var threshold := 2 * siblingCount + 4;
    var r := Bar(threshold, totalPages, currentPage, siblingCount);
    NoFallback(threshold, totalPages, currentPage, siblingCount);
    ShowsSiblings(threshold, totalPages, currentPage, siblingCount);
    if totalPages >= 1 then BarWellFormed(threshold, totalPages, currentPage, siblingCount); r else r
  }

  lemma ShowsSiblings(threshold: int, totalPages: int, currentPage: int, siblingCount: nat)
    requires threshold >= 2 * siblingCount + 4
    ensures forall p :: 1 <= p <= totalPages && currentPage - siblingCount <= p <= currentPage + siblingCount
                        ==> Num(p) in Bar(threshold, totalPages, currentPage, siblingCount)
  {
    forall p | 1 <= p <= totalPages && currentPage - siblingCount <= p <= currentPage + siblingCount
      ensures Num(p) in Bar(threshold, totalPages, currentPage, siblingCount)
    {
      SiblingsShown(threshold, totalPages, currentPage, siblingCount, p);
    }
  }

  /** For the one sibling the component uses, the corrected bar is the bar as written. */
  lemma FixedAgreesWithOneSibling(totalPages: int, currentPage: int)
    ensures FixedPaginationRange(totalPages, currentPage, 1) == PaginationRange(totalPages, currentPage, 1)
  {
  }

  /** The sibling count the component passes. */
  const SIBLING_COUNT: nat := 1

  /** The rendered bar and the disabled state of the four arrow buttons. */
  datatype Controls = Controls(
    items: seq<PageItem>,
    firstDisabled: bool,
    previousDisabled: bool,
    nextDisabled: bool,
    lastDisabled: bool)

  /** The component: nothing for at most one page, for page 0 or for a bar of
      fewer than two entries; otherwise the bar and the arrow buttons, the
      first/previous pair disabled on page 1 and the next/last pair on the last page. */
  function Render(currentPage: int, totalPages: int): (r: Option<Controls>)
    ensures r.Some? <==> totalPages >= 2 && currentPage != 0
    ensures r.Some? ==> WellFormedBar(r.value.items, totalPages)
    ensures r.Some? ==> r.value.items == PaginationRange(totalPages, currentPage, SIBLING_COUNT)
  {
    FixedAgreesWithOneSibling(totalPages, currentPage);
    if totalPages <= 1 then None
    else
      var items := FixedPaginationRange(totalPages, currentPage, SIBLING_COUNT);
      if currentPage == 0 || |items| < 2 then None
      else
        Some(Controls(items, currentPage == 1, currentPage == 1,
                      currentPage == totalPages, currentPage == totalPages))
  }

  /** A button of the bar. */
  datatype Button = First | Previous | Next | Last | PageButton(page: int)

  /** The page a click asks for: nothing when the bar is not rendered, the
      button is disabled, or no such page button is shown. A shown page-number
      button is never disabled, the current page's included, and asks for its
      own page. */
  function Press(currentPage: int, totalPages: int, b: Button): (requested: Option<int>)
    ensures requested.Some? ==> Render(currentPage, totalPages).Some?
    ensures Render(currentPage, totalPages).Some? ==>
      && (b == First ==> requested == if currentPage == 1 then None else Some(1))
      && (b == Previous ==> requested == if currentPage == 1 then None else Some(currentPage - 1))
      && (b == Next ==> requested == if currentPage == totalPages then None else Some(currentPage + 1))
      && (b == Last ==> requested == if currentPage == totalPages then None else Some(totalPages))
    ensures requested.Some? && 1 <= currentPage <= totalPages ==> 1 <= requested.value <= totalPages
    ensures b.PageButton? && requested.Some? ==> requested.value == b.page
    ensures (b.PageButton? && Render(currentPage, totalPages).Some? &&
             Num(b.page) in PaginationRange(totalPages, currentPage, SIBLING_COUNT)) ==>
              requested == Some(b.page)
  {
    match Render(currentPage, totalPages)
    case None => None
    case Some(c) =>
      WellFormedInRange(c.items, totalPages);
      match b
      case First => if c.firstDisabled then None else Some(1)
      case Previous => if c.previousDisabled then None else Some(currentPage - 1)
      case Next => if c.nextDisabled then None else Some(currentPage + 1)
      case Last => if c.lastDisabled then None else Some(totalPages)
      case PageButton(p) => if Num(p) in c.items then Some(p) else None
  }
}

=== FILE: paging.dfy ===
/** Client-side paging of the filtered list: the page count and the
    `Array.prototype.slice` window of the current page. */
module SwapiPaging {
  import opened Numbers

  const ITEMS_PER_PAGE: nat := 10

  /** `Math.ceil(n / ITEMS_PER_PAGE)`: the fewest pages that hold `n` items. */
  function TotalPages(n: nat): (pages: nat)
    ensures pages * ITEMS_PER_PAGE >= n
    ensures n > 0 ==> (pages - 1) * ITEMS_PER_PAGE < n
    ensures n == 0 ==> pages == 0
  {
    (n + ITEMS_PER_PAGE - 1) / ITEMS_PER_PAGE
  }

  /** Page counts for 0, 1, 10, 11 and 100 characters: 0, 1, 1, 2 and 10 pages. */
  lemma TotalPagesExamples()
    ensures TotalPages(0) == 0 && TotalPages(1) == 1 && TotalPages(10) == 1
    ensures TotalPages(11) == 2 && TotalPages(100) == 10
  {
  }

  /** How `slice` reads one bound: a negative bound counts back from the end,
      and the result is clamped into `[0, len]`. */
  function SliceBound(x: int, len: nat): (b: nat)
    ensures b <= len
  {
    if x < 0 then (if len + x < 0 then 0 else len + x)
    else if x > len then len
    else x
  }

  /** `s.slice(start, end)`: the items from `start` up to, not including,
      `end`; an end past the list stops at its end, and an end at or before
      the start gives nothing. */
  function Slice<T>(s: seq<T>, start: int, end: int): (r: seq<T>)
    ensures |r| <= |s|
    ensures end - start >= 0 ==> |r| <= end - start
    ensures 0 <= start <= end <= |s| ==> r == s[start..end]
    ensures 0 <= start <= |s| <= end ==> r == s[start..]
    ensures 0 <= end <= start ==> r == []
    ensures |s| <= start ==> r == []
  {
    var from := SliceBound(start, |s|);
    var to := SliceBound(end, |s|);
    if from < to then s[from..to] else []
  }

  /** A negative bound counts back from the end of the list, and one that
      reaches back past the start is read as 0. */
  lemma SliceFromEnd<T>(s: seq<T>, start: int, end: int)
    ensures start < 0 ==> Slice(s, start, end) == Slice(s, Max(|s| + start, 0), end)
    ensures end < 0 ==> Slice(s, start, end) == Slice(s, start, Max(|s| + end, 0))
  {
  }

  /** The memoised `paginatedCharacters`: the slice from
      `(currentPage - 1) * 10` to ten further. `currentPage` is not clamped. */
  function PageOf<T>(filtered: seq<T>, currentPage: int): (page: seq<T>)
    ensures |page| <= ITEMS_PER_PAGE
    ensures currentPage >= 1 ==>
      var start := (currentPage - 1) * ITEMS_PER_PAGE;
      page == if start >= |filtered| then []
              else filtered[start..Min(start + ITEMS_PER_PAGE, |filtered|)]
  {
    var start := (currentPage - 1) * ITEMS_PER_PAGE;
    Slice(filtered, start, start + ITEMS_PER_PAGE)
  }

  /** Every page from 1 to `TotalPages` is non-empty, and pages past the end are empty. */
  lemma PagesInRange<T>(filtered: seq<T>, p: int)
    requires p >= 1
    ensures p <= TotalPages(|filtered|) <==> |PageOf(filtered, p)| > 0
  {
  }

  /** Pages 1 to `TotalPages`, read in order, give back the whole filtered list. */
  lemma {:induction false} PagesPartition<T>(filtered: seq<T>)
    ensures Pages(filtered, TotalPages(|filtered|)) == filtered
  {
    var n := TotalPages(|filtered|);
    PagesPrefix(filtered, n);
    assert filtered[..Min(n * ITEMS_PER_PAGE, |filtered|)] == filtered;
  }

  /** Pages 1 to `count`, concatenated. */
  function Pages<T>(filtered: seq<T>, count: nat): seq<T> {
    if count == 0 then [] else Pages(filtered, count - 1) + PageOf(filtered, count)
  }

  lemma {:induction false} PagesPrefix<T>(filtered: seq<T>, count: nat)
    ensures Pages(filtered, count) == filtered[..Min(count * ITEMS_PER_PAGE, |filtered|)]
  {
    if count > 0 {
      PagesPrefix(filtered, count - 1);
      var a := Min((count - 1) * ITEMS_PER_PAGE, |filtered|);
      var b := Min(count * ITEMS_PER_PAGE, |filtered|);
      assert filtered[..b] == filtered[..a] + filtered[a..b];
    }
  }

  /** The page-2 window of a 25-item list holds items 10 to 19. */
  lemma SecondPageOfTwentyFive<T>(filtered: seq<T>)
    requires |filtered| == 25
    ensures PageOf(filtered, 2) == filtered[10..20]
  {
  }

  /** Because `slice` counts negative bounds from the end, page 0 is always
      empty while page -1 of 25 items shows items 5 to 14. */
  lemma NonPositivePages<T>(filtered: seq<T>)
    requires |filtered| == 25
    ensures PageOf(filtered, 0) == []
    ensures PageOf(filtered, -1) == filtered[5..15]
  {
  }
}

=== FILE: sequences.dfy ===
/** Order-related notions on sequences shared by the filtering and facet models. */
module Sequences {

  /** `a` can be obtained from `b` by deleting elements: the order of what is
      kept is preserved. */
  ghost predicate IsSubsequence<T>(a: seq<T>, b: seq<T>)
    decreases |b|
  {
    if |a| == 0 then true
    else if |b| == 0 then false
    else (a[0] == b[0] && IsSubsequence(a[1..], b[1..])) || IsSubsequence(a, b[1..])
  }

  /** Every sequence is a subsequence of itself. */
  lemma {:induction false} SubsequenceReflexive<T>(a: seq<T>)
    ensures IsSubsequence(a, a)
    decreases |a|
  {
    if |a| > 0 {
      SubsequenceReflexive(a[1..]);
    }
  }

  /** No element occurs twice. */
  predicate NoDuplicates<T(==)>(s: seq<T>) {
    forall i, j :: 0 <= i < j < |s| ==> s[i] != s[j]
  }

  /** The position of the first occurrence of `x` in `s`. */
  function FirstIndex<T(==)>(s: seq<T>, x: T): (k: nat)
    requires x in s
    ensures k < |s| && s[k] == x
    ensures x !in s[..k]
  {
    if s[0] == x then 0
    else
      assert s == [s[0]] + s[1..];
      var k := 1 + FirstIndex(s[1..], x);
      assert s[..k] == [s[0]] + s[1..][..k - 1];
      k
  }

  /** Appending never moves an element's first occurrence. */
  lemma FirstIndexAppend<T>(s: seq<T>, x: T, y: T)
    requires y in s
    ensures y in s + [x]
    ensures FirstIndex(s + [x], y) == FirstIndex(s, y)
  {
    var k := FirstIndex(s, y);
    assert (s + [x])[k] == y;
    assert (s + [x])[..k] == s[..k];
    FirstIndexUnique(s + [x], y, k);
  }

  /** A position holding `x` with no earlier `x` is the first occurrence. */
  lemma FirstIndexUnique<T>(s: seq<T>, x: T, k: nat)
    requires k < |s| && s[k] == x && x !in s[..k]
    ensures FirstIndex(s, x) == k
  {
  }
}

=== FILE: swapi_data.dfy ===
/** The data hook as a state record: the aggregated list, the load flags, the
    page number and the search and filter selection, with the derived list,
    page window, page count and species facet as pure functions of it. */
module SwapiData {
  import opened SwapiTypes
  import opened SwapiAggregation
  import opened SwapiFilter
  import opened SwapiFacets
  import opened SwapiPaging
  import opened Numbers

  /** The message shown when aggregation fails. */
  const FETCH_ERROR: string := "Failed to fetch ALL Star Wars characters for filtering."

  datatype SwapiState = SwapiState(
    allCharacters: seq<Character>,
    isLoading: bool,
    error: Option<string>,
    currentPage: int,
    searchTerm: string,
    filters: Filters)

  const NO_FILTERS: Filters := Filters("", "", "")

  /** The hook's initial state: no data, loading, no error, page 1, nothing selected. */
  const INITIAL: SwapiState := SwapiState([], true, None, 1, "", NO_FILTERS)

  /** `fetchAllData` after the given requests have settled. It clears the
      error and raises the loading flag, then publishes the aggregated list
      only if the loop finished; on a failure it sets the error and keeps the
      previous list; the loading flag drops once the loop has ended either way. */
  function FetchAllData(s: SwapiState, responses: seq<FetchOutcome>): (r: SwapiState)
    ensures var k := StopIndex(responses);
      && (r.isLoading <==> k == |responses|)
      && (r.error.Some? <==> k < |responses| && responses[k].Failed?)
      && (r.error.Some? ==> r.error.value == FETCH_ERROR)
      && (r.allCharacters == if k < |responses| && responses[k].Received?
                             then AllResults(responses[..k + 1]) else s.allCharacters)
    ensures r.currentPage == s.currentPage && r.searchTerm == s.searchTerm && r.filters == s.filters
  {
    var started := s.(isLoading := true, error := None);
    match DrainPages(responses)
    case Complete(cs) => started.(allCharacters := cs, isLoading := false)
    case Aborted => started.(error := Some(FETCH_ERROR), isLoading := false)
    case Awaiting => started
  }

  /** A failure on the second request leaves the
      initial empty list in place, with the error set and loading finished. */
  lemma SecondPageFailure(first: Page, later: seq<FetchOutcome>)
    requires HasNext(first)
    ensures var r := FetchAllData(INITIAL, [Received(first), Failed] + later);
      r.allCharacters == [] && r.error == Some(FETCH_ERROR) && !r.isLoading
  {
    var responses := [Received(first), Failed] + later;
    DrainFailure(responses, 1);
  }

  /** `setPage`: stores the page as given, without clamping. */
  function SetPage(s: SwapiState, page: int): (r: SwapiState)
    ensures r.currentPage == page
    ensures r.(currentPage := s.currentPage) == s
  {
    s.(currentPage := page)
  }

  function SetSearchTerm(s: SwapiState, term: string): (r: SwapiState)
    ensures r.searchTerm == term
    ensures r.(searchTerm := s.searchTerm) == s
  {
    s.(searchTerm := term)
  }

  function SetFilters(s: SwapiState, filters: Filters): (r: SwapiState)
    ensures r.filters == filters
    ensures r.(filters := s.filters) == s
  {
    s.(filters := filters)
  }

  function Filtered(s: SwapiState): seq<Character> {
    FilterCharacters(s.allCharacters, s.searchTerm, s.filters)
  }

  /** The hook's `characters`: the current page of the filtered list. */
  function Characters(s: SwapiState): (cs: seq<Character>)
    ensures |cs| <= ITEMS_PER_PAGE
    ensures s.currentPage >= 1 ==>
      var f := Filtered(s);
      var start := (s.currentPage - 1) * ITEMS_PER_PAGE;
      cs == if start >= |f| then [] else f[start..Min(start + ITEMS_PER_PAGE, |f|)]
    ensures forall c :: c in cs ==> c in s.allCharacters && Matches(c, s.searchTerm, s.filters)
  {
    var page := PageOf(Filtered(s), s.currentPage);
    assert forall c :: c in page ==> c in Filtered(s) by {
      SlicedMembers(Filtered(s), s.currentPage);
    }
    page
  }

  lemma SlicedMembers<T>(xs: seq<T>, p: int)
    ensures forall c :: c in PageOf(xs, p) ==> c in xs
  {
    var start := (p - 1) * ITEMS_PER_PAGE;
    var from := SliceBound(start, |xs|);
    var to := SliceBound(start + ITEMS_PER_PAGE, |xs|);
    if from < to {
      assert PageOf(xs, p) == xs[from..to];
    }
  }

  function TotalPagesOf(s: SwapiState): nat {
    TotalPages(|Filtered(s)|)
  }

  /** Changing the selection does not move the page: a page past the new end
      shows nothing, the situation the empty-state "clear" action recovers from. */
  lemma FilterChangeKeepsPage(s: SwapiState, filters: Filters)
    requires s.currentPage > TotalPagesOf(SetFilters(s, filters))
    ensures SetFilters(s, filters).currentPage == s.currentPage
    ensures Characters(SetFilters(s, filters)) == []
  {
  }
}

=== FILE: types.dfy ===
/** The record and page shapes of the people collection, and the optional-value
    wrapper used for the source's `string | null` fields. */
module SwapiTypes {

  /** `T | null`: None is JavaScript's null. */
  datatype Option<+T> = None | Some(value: T) {

    /** The wrapped value, or `default` for None. */
    function GetOr(default: T): T {
      match this
      case Some(v) => v
      case None => default
    }
  }

  /** One character of the people collection. Numeric attributes arrive as text
      and stay text; `homeworld`, `films` and `species` are reference URLs. */
  datatype Character = Character(
    name: string,
    height: string,
    mass: string,
    hairColor: string,
    skinColor: string,
    eyeColor: string,
    birthYear: string,
    gender: string,
    homeworld: string,
    films: seq<string>,
    species: seq<string>,
    created: string,
    url: string)

  /** One page of a paginated collection response. */
  datatype Page = Page(
    count: int,
    next: Option<string>,
    previous: Option<string>,
    results: seq<Character>)
}
